=== FILE: README.md ===
# ESTest runtime assertions in Dafny

This project models `ESTest.js`, a runtime assertion engine for test code in JavaScript. `ESTest(input, mode, msgOrInput2, msg)` works in one of two modes:

- **Type mode.** When `mode` is one of eleven type tags, the call checks that the input has that tag.
- **Operator mode.** When `mode` is one of six comparison symbols, the call checks that the comparison holds between the input and the third argument.

In every other case the call fails. Failures carry text built by a diagnostic formatter. The engine keeps a module-level marker, `testResult`, which is set only when a call passes and which `_getTestResult` reads back.

The model has three parts:

- **Type classifier** (`values.dfy`, module `Values`). JavaScript values are a datatype: `Undefined | Null | Bool | Num | NaN | BigInt | Str | Sym | Func | Arr | Obj`. `Classify` is `fixLegacyType`. It looks up `typeof` in the source's table, and the table splits the two kinds `typeof` conflates: "object" becomes null, array or object, and "number" becomes NaN or number.
- **Diagnostic formatter** (`formatter.dfy`, module `Formatter`; properties in `rendering.dfy`, module `Rendering`). `Format` is `fixTextInLog`. Arrays and objects are rendered by appending `piece + ", "` for each element or entry. The result then goes through the host's `trim` and `slice(0, -1)`, which `text.dfy` (module `Text`) models. An array directly inside an array becomes `[...]`, and an object directly inside an object becomes `{...}`. Mixed nesting is rendered in full.
- **Dispatcher and evaluators** (`assertions.dfy`, module `Assertions`; properties across calls in `suite.dfy`, module `Suite`). `ESTest`, `TypeMode` (`useTypeMode`) and `OperatorMode` (`useOperatorMode`) return a `Step`. A `Step` holds the outcome, which is `Passed` or `Failed(kind)`, and the value of `testResult` after the call. Thrown errors become failure kinds:
  - `InvalidMode`
  - `InvalidMessageType`
  - `TypeMismatch`
  - `ComparisonFailed`

  The marker before the call is an explicit argument. A missing JavaScript argument is `Undefined`.

The relational operators use an abstract host comparison, `Host.lessThan`. It returns `Some(true)`, `Some(false)`, or `None` for an undefined comparison. The operators follow ECMA-262's IsLessThan abstract operation:
- `x < y` holds when `lessThan(x, y)` is `Some(true)`.
- `x > y` holds when `lessThan(y, x)` is `Some(true)`.
- `x <= y` holds only when `lessThan(y, x)` is `Some(false)`.
- `x >= y` holds only when `lessThan(x, y)` is `Some(false)`.

`===` is the host's `strictEquals`, and `!==` is its negation.

Three behaviours of the code are easy to miss:

- **Nested containers.** Truncation happens only when the nested container has the same kind as its parent. So `[1, [2, 3]]` renders as `[1, [...]]`, but `[{a: {b: 1}}]` renders as `[{a: {...}}]`.
- **Type mismatch.** The mismatch branch (ESTest.js:117-128) is written to throw a templated message naming both tags. But ESTest.js:120 declares a block-scoped `const fixLegacyType` whose own initializer calls `fixLegacyType` before the binding exists. So the branch throws a ReferenceError before the message is built. The model records only that the call fails with `TypeMismatch` and leaves the marker unchanged.
- **`trim` and the first piece.** `trim` strips whitespace at both ends of the whole accumulated text, not just the final ", ". So an array or object renders as its joined pieces with the join's leading whitespace removed (`Rendering.ArrayRenderingExact`, `Rendering.ObjectRenderingExact`). When the first key of an object starts with whitespace, that whitespace disappears: `{" a": 1}` renders as `{a: 1}` (`Rendering.LeadingKeyWhitespaceDropped`). The same happens to an array whose first element is a function whose text starts with whitespace.

## Model

| member | source | states |
|---|---|---|
| Values.Classify | ESTest.js:4-38 | classification is total: the tag is always one of TYPES, so the fallback error text is never produced, and each tag holds for exactly one kind of value (null, array, object, NaN and number kept apart) |
| Values.ClassifyRefinesNativeType | ESTest.js:18-32 | the classifier agrees with `typeof` except that it splits "object" into null/array/object and "number" into NaN/number |
| Formatter.Format | ESTest.js:40-92 | models `fixTextInLog`; its behaviour is stated by the Rendering lemmas below (branch choice in FormatFollowsClassify, containers in ArrayRenderingExact and ObjectRenderingExact, scalars in PrimitivesRender) |
| Formatter.ItemText | ESTest.js:47-50 | models one array element's piece; Rendering.FormatFollowsClassify states that it is `[...]` exactly for elements classified "array" and the full rendering otherwise |
| Formatter.EntryText | ESTest.js:66-70 | models one object entry's piece; Rendering.FormatFollowsClassify states the `key: {...}` form for values classified "object", and Rendering.EntryTextLeadsClean that the piece starts with its key |
| Rendering.FormatFollowsClassify | ESTest.js:78-91 | the formatter takes the branch that the switch on the classified tag selects; element and entry abbreviation test the tags "array" and "object" |
| Rendering.PrimitivesRender | ESTest.js:83-90 | strings render in single quotes, bigints as their numeral followed by `n`, every symbol as `Symbol(...)`, and other kinds as the host's text for them |
| Rendering.BigIntRoundTrip | ESTest.js:83-84 | a rendered bigint ends in `n` and the text before it reads back as the same integer |
| Text.DecimalRoundTrip | ESTest.js:84 | the numeral printed for an integer is digits after an optional '-', and reading it back gives the integer |
| Text.Accumulate | ESTest.js:44-52 | models the `result += piece + ", "` loop; Text.AccumulateIsJoin relates it to the reference join |
| Text.AccumulateIsJoin | ESTest.js:44-52 | appending each piece followed by ", " yields the pieces joined by ", " plus one trailing ", " |
| Text.Trim | ESTest.js:56 | models `String.prototype.trim`; Text.TrimIsInfix characterises its result |
| Text.TrimIsInfix | ESTest.js:56 | `trim` returns the infix between the whitespace run at the start and the whitespace run at the end: everything before and after it is whitespace, and the result neither starts nor ends with whitespace |
| Text.DropLast | ESTest.js:56 | models `slice(0, -1)`; Text.TrimSliceExact states what `trim().slice(0, -1)` leaves of the accumulated text |
| Text.TrimSliceExact | ESTest.js:54-56 | for any pieces, `trim` then `slice(0, -1)` of the accumulated text is the join of the pieces with only its leading whitespace removed |
| Text.TrimSliceRemovesSeparator | ESTest.js:54-56 | when the first piece does not start with whitespace, `trim` then `slice(0, -1)` removes exactly the final ", " |
| Rendering.ItemTextsInOrder | ESTest.js:46-52 | element renderings are produced one per element, in element order |
| Rendering.EntryTextsInOrder | ESTest.js:65-71 | entry renderings are produced one per entry, in entry order |
| Rendering.ArrayRenderingExact | ESTest.js:41-58 | every array renders as `[` + its element renderings joined by ", " with the join's leading whitespace removed + `]` |
| Rendering.ArrayRendering | ESTest.js:41-58 | when the first element's rendering does not start with whitespace, an array renders as `[` + its element renderings joined by ", " + `]`; a nested array element is `[...]`, and any other element is formatted in full |
| Rendering.ArrayFirstItemClean | ESTest.js:46-56 | only a first element that is a function whose text starts with whitespace can make `trim` remove more than the separator |
| Rendering.ObjectRenderingExact | ESTest.js:60-76 | every object renders as `{` + its entry renderings joined by ", " with the join's leading whitespace removed + `}` |
| Rendering.ObjectRendering | ESTest.js:60-76 | when the first key does not start with whitespace, an object renders as `{` + `key: value` pieces in entry order joined by ", " + `}`; a nested object value is `{...}`, while arrays and null are formatted in full |
| Rendering.EntryTextLeadsClean | ESTest.js:67-73 | an entry's piece starts with its key's first character (or ':' for an empty key), so it starts with whitespace exactly when its key does |
| Rendering.EmptyContainers | ESTest.js:41-76 | the empty array renders as `[]` and the empty object as `{}` |
| Rendering.FormatLeadsClean | ESTest.js:78-91 | every value except a function renders as non-empty text that does not start with whitespace |
| Rendering.ArrayInArrayTruncated | ESTest.js:47-48 | an array directly inside an array is abbreviated to `[...]` |
| Rendering.ObjectInArrayExpanded | ESTest.js:46-50 | an object inside an array is rendered in full, not abbreviated |
| Rendering.ObjectInObjectTruncated | ESTest.js:66-67 | an object directly inside an object is abbreviated to `{...}` |
| Rendering.ValueInObjectExpanded | ESTest.js:68-69 | any other value inside an object, arrays and null included, is rendered in full |
| Rendering.NestedArrayExample | ESTest.js:41-58 | a number followed by a nested array, as in `[1, [2, 3]]`, renders as `[1, [...]]` whatever the nested array holds |
| Rendering.LeadingKeyWhitespaceDropped | ESTest.js:73 | `{" a": 1}` renders as `{a: 1}`: `trim` also strips the first key's leading whitespace |
| Assertions.ParseOperator | ESTest.js:3 | a symbol is recognised exactly when it is in OPERATORS, and it reads as the operator that prints as it |
| Assertions.OperatorRoundTrip | ESTest.js:3 | every operator prints as an accepted symbol that reads back as the same operator |
| Assertions.Holds | ESTest.js:184-251 | models the six comparisons; Assertions.RelationalDuality states how they relate, and Suite.IntegerComparisons what they mean on integers |
| Assertions.RelationalDuality | ESTest.js:184-251 | `>` and `>=` are `<` and `<=` with the operands swapped, `!==` negates `===`, and `<=` and `>=` exclude `>` and `<` and are their negations exactly when the host's comparison in that direction is defined |
| Assertions.ModesDisjoint | ESTest.js:3-16 | no mode is both a type tag and an operator symbol, so routing is deterministic |
| Assertions.MessageAcceptedExactly | ESTest.js:104-114 | the message check accepts exactly a missing message and string messages |
| Assertions.TypeMode | ESTest.js:94-156 | checks run in the source's order: the mode is checked first, then the message, then the tag. The call passes exactly when the mode is a tag, the message is missing or a string, and the input's tag equals the mode. A pass sets the marker to the mode. Every failure leaves the marker unchanged |
| Assertions.OperatorMode | ESTest.js:158-254 | the mode is checked first, then the message, then the comparison. The call passes exactly when the selected comparison holds. A pass sets the marker to `true`. Every failure leaves the marker unchanged |
| Assertions.ESTest | ESTest.js:260-273 | fails with InvalidMode exactly when the mode is neither a tag nor an operator. A tag runs type mode with the third argument as the message. An operator runs operator mode with the third argument as the comparand and the fourth as the message. The message is validated before the check. On a pass the marker is the mode or `true`. Every failure leaves the marker unchanged |
| Assertions.GetTestResult | ESTest.js:256-258 | models `_getTestResult`, which reads the module's marker; Suite.RunSuite states what it reports after a run of calls |
| Suite.TypeModeIgnoresFourth | ESTest.js:260-262 | in type mode the fourth argument has no effect |
| Suite.TypeModeIgnoresHost | ESTest.js:94-156 | in type mode the host's comparisons have no effect |
| Suite.UnknownModeRunsNoCheck | ESTest.js:265-272 | an unknown mode fails with InvalidMode whatever the other arguments are, and the marker is unchanged |
| Suite.MessageCheckedFirst | ESTest.js:104-117 | a message that is neither missing nor a string fails with InvalidMessageType even when the check itself would pass |
| Suite.OutcomeIgnoresMarker | ESTest.js:117-155 | the verdict of a call does not depend on the marker it starts from |
| Suite.IntegerComparisons | ESTest.js:184-251 | when the host compares numbers by value, each operator mode passes exactly when the integer relation holds and otherwise fails with ComparisonFailed |
| Suite.UndefinedComparisonFails | ESTest.js:184-228 | when less-than is undefined in both directions, as with NaN, all four relational modes fail, so `>=` is not the negation of `<` |
| Suite.TypeModeExamples | ESTest.js:260-273 | `ESTest(5, "number")` passes and records "number". `ESTest(5, "string")` is a type mismatch. `ESTest(5, "number", 123)` fails on its message. `ESTest(5, "not-a-mode")` fails on its mode |
| Suite.RunSuite | ESTest.js:155-258 | over a run of calls, each verdict equals that call's verdict on its own. Afterwards `_getTestResult` reports the marker of the last passing call, or the initial null when no call passed |

## Left out

- Error message text: the emoji, indentation and templated messages of every throw (ESTest.js:97-102, 108-113, 122-127, 161-166, 172-177, 187-248, 266-271) are not modelled, only the failure kind; in particular the formatted input and mode that the messages embed.
- The ReferenceError raised by the shadowing `const fixLegacyType` at ESTest.js:120 is modelled only as the failure kind `TypeMismatch`.
- Host comparison semantics: type coercion for `<`/`>` between mixed kinds and floating-point ordering are parameters (`Host`), not interpreted; the left-first evaluation order of IsLessThan only matters for side effects and is left out.
- Identity under `===`/`!==` (ESTest.js:229-250): the host compares arrays, objects, functions and symbols by identity, but a `Value` carries no identity. So `const a = {}; ESTest(a, "===", a)` and `ESTest({}, "===", {})` both pass `Obj([])` twice and get the same verdict in the model, whatever the host, although the first passes and the second fails in the source. The same holds for two symbols with one description and for two functions with equal text.
- Numbers are modelled by their integral values plus `NaN`: fractions, infinities and `-0` are left out, and the decimal text used for a number is guaranteed to match the host's only for safe integers (|n| ≤ 2^53 − 1); the host switches to exponent notation from 10^21.
- `Object.entries` ordering (integer-like keys first) is a host detail: an object is the given ordered list of its own enumerable string-keyed entries.
- Strings are sequences of Unicode scalar values rather than UTF-16 code units; `trim`'s whitespace set is the ECMAScript WhiteSpace and LineTerminator characters.
- A function's text is whatever the host's string conversion gives (the `source` field); a `toString` that throws is out of scope, so the formatter is total on the values the model represents.
- Values are finite trees, so shared and cyclic references are left out. In the source, a cycle that alternates arrays and objects (`a = []; a.push({k: a})`) escapes the same-kind truncation at ESTest.js:47 and 66, and `fixTextInLog` recurses until the stack overflows; a finite value whose arrays and objects alternate deeply enough exhausts the host's stack the same way. The model's formatter has no depth limit.
- Assertions.OperatorMode: does not model the formatting of both operands at ESTest.js:181-182, which runs before the comparison and can throw there: a cyclic operand or a very deeply nested one (alternating arrays and objects) overflows the stack, as in `ESTest(a, "===", a)`, and `Object.entries` (ESTest.js:65) calls getters, so an object whose getter throws, as in `ESTest({get a() { throw 0 }}, "!==", 1)`, fails there too. The model represents an object by its entry values and passes whenever the comparison holds. On the values the model represents, with no throwing getters and nesting within the host's stack, the formatting cannot fail.
- Assertions.OperatorMode: a host comparison that throws is not modelled. `Symbol() < 1` throws a TypeError, and so does comparing an object with no primitive conversion. The source then fails with that error instead of the comparison error at ESTest.js:186-226. `Host.lessThan` has no throwing result, so such a case is modelled as an undefined comparison (`None`) and reported as ComparisonFailed.
- Sparse arrays: `forEach` (ESTest.js:46) skips holes; an array is modelled as the dense list of its elements.
- The formatter's default branch (ESTest.js:89-90) returns the value itself, which every caller then converts to text in a template literal; the model returns that text directly (`Formatter.HostText`).
- The classifier's fallback text (ESTest.js:36) is reachable only for host objects whose `typeof` is outside the eight standard results, which the value model does not have; `Values.Classify` proves it is never produced.
- The default value of the message parameter (ESTest.js:94, 158) only feeds message text, so it has no effect in the model.
- The empty `switch (mode)` at ESTest.js:130-153 is a no-op.
- Module plumbing: the `name` constant (ESTest.js:1) and the `export` line (ESTest.js:275).

=== FILE: assertions.dfy ===
/**
  The assertion entry point `ESTest` and its two evaluators, `useTypeMode` and
  `useOperatorMode`, together with the module-level `testResult` marker they
  set on success.

  A call either passes or fails with one of four kinds. The source reports a
  failure by throwing; the model returns it as an `Outcome`. The marker is
  threaded explicitly: each call takes the marker before it and returns the
  marker after it.
 */
module Assertions {
  import opened Values

  datatype Option<T> = None | Some(value: T)

  /** The six comparison modes. */
  datatype Operator = Lt | Le | Ge | Gt | StrictEq | StrictNe

  /** The operator symbols the engine accepts, in source order. */
  const OPERATORS: seq<string> := ["<", "<=", ">=", ">", "===", "!=="]

  function Symbol(op: Operator): string
  {
    match op
    case Lt => "<"
    case Le => "<="
    case Ge => ">="
    case Gt => ">"
    case StrictEq => "==="
    case StrictNe => "!=="
  }

  /** Reads an operator symbol; every accepted symbol reads back as the
      operator that prints as it. */
  function ParseOperator(m: string): (r: Option<Operator>)
    ensures r.Some? <==> m in OPERATORS
    ensures r.Some? ==> Symbol(r.value) == m
  {
    if m == "<" then Some(Lt)
    else if m == "<=" then Some(Le)
    else if m == ">=" then Some(Ge)
    else if m == ">" then Some(Gt)
    else if m == "===" then Some(StrictEq)
    else if m == "!==" then Some(StrictNe)
    else None
  }

  /** Printing an operator and reading the symbol back gives the operator, and
      every operator is one of the accepted symbols. */
  lemma OperatorRoundTrip(op: Operator)
    ensures Symbol(op) in OPERATORS
    ensures ParseOperator(Symbol(op)) == Some(op)
  {
  }

  /** The host's comparison primitives, which the model does not interpret.
      `lessThan(x, y)` is the result of the host's less-than comparison of x
      with y: `Some(b)` for a definite answer and `None` for "undefined" (a
      NaN operand, say). `strictEquals` is the host's strict equality. */
  datatype Host = Host(lessThan: (Value, Value) -> Option<bool>, strictEquals: (Value, Value) -> bool)

  /** `x op y` as the host evaluates it: `>` swaps the operands of
      less-than, `<=` and `>=` hold only when the corresponding less-than is
      definitely false, and `!==` negates `===`. */
  function Holds(host: Host, op: Operator, x: Value, y: Value): bool
  {
    match op
    case Lt => host.lessThan(x, y) == Some(true)
    case Gt => host.lessThan(y, x) == Some(true)
    case Le => host.lessThan(y, x) == Some(false)
    case Ge => host.lessThan(x, y) == Some(false)
    case StrictEq => host.strictEquals(x, y)
    case StrictNe => !host.strictEquals(x, y)
  }

  /** How the operators relate under the derivation in `Holds`: `>` and `>=`
      are `<` and `<=` with the operands swapped, `!==` negates `===`, and
      `<=` and `>=` are the negations of `>` and `<` exactly where the host's
      comparison is defined. */
  lemma RelationalDuality(host: Host, x: Value, y: Value)
    ensures Holds(host, Gt, x, y) == Holds(host, Lt, y, x)
    ensures Holds(host, Ge, x, y) == Holds(host, Le, y, x)
    ensures Holds(host, StrictNe, x, y) == !Holds(host, StrictEq, x, y)
    ensures Holds(host, Le, x, y) ==> !Holds(host, Gt, x, y)
    ensures Holds(host, Ge, x, y) ==> !Holds(host, Lt, x, y)
    ensures (Holds(host, Le, x, y) <==> !Holds(host, Gt, x, y)) <==> host.lessThan(y, x).Some?
    ensures (Holds(host, Ge, x, y) <==> !Holds(host, Lt, x, y)) <==> host.lessThan(x, y).Some?
  {
    DefinedIsTrueOrFalse(host.lessThan(y, x));
    DefinedIsTrueOrFalse(host.lessThan(x, y));
  }

  lemma DefinedIsTrueOrFalse(c: Option<bool>)
    ensures c.Some? ==> c == Some(true) || c == Some(false)
  {
    if c.Some? {
      if c.value {
        assert c == Some(true);
      } else {
        assert c == Some(false);
      }
    }
  }

  /** Why a call failed. */
  datatype FailureKind = InvalidMode | InvalidMessageType | TypeMismatch | ComparisonFailed

  datatype Outcome = Passed | Failed(kind: FailureKind)

  /** The outcome of one call and the value of `testResult` after it. */
  datatype Step = Step(outcome: Outcome, testResult: Value)

  /** The value `testResult` holds before any call. */
  const INITIAL_TEST_RESULT: Value := Null

  /** The engine's module-level state: the `testResult` variable. */
  datatype ModuleState = ModuleState(testResult: Value)

  /** `_getTestResult`: the marker as a caller reads it. */
  function GetTestResult(state: ModuleState): Value
  {
    state.testResult
  }

  /** The mode names a type tag (`TYPES.includes(mode)`). */
  predicate IsTypeMode(mode: Value)
  {
    mode.Str? && mode.s in TYPES
  }

  /** The mode names an operator (`OPERATORS.includes(mode)`). */
  predicate IsOperatorMode(mode: Value)
  {
    mode.Str? && mode.s in OPERATORS
  }

  /** The custom message passes validation when `typeof msg` is "undefined"
      or "string". */
  predicate MessageAccepted(msg: Value)
  {
    NativeType(msg) in ["undefined", "string"]
  }

  /** Exactly the missing message and string messages are accepted. */
  lemma MessageAcceptedExactly(msg: Value)
    ensures MessageAccepted(msg) <==> msg.Undefined? || msg.Str?
  {
    assert NativeType(msg) == "undefined" <==> msg.Undefined?;
    assert NativeType(msg) == "string" <==> msg.Str?;
  }

  /** `useTypeMode`: validates the mode and the message, then compares the
      classified tag of the input with the mode. The mismatch branch fails
      before it can build its message (see README), and every failure leaves
      the marker alone; a pass sets the marker to the mode. */
  function TypeMode(testResult: Value, input: Value, mode: Value, msg: Value): (r: Step)
    ensures r.outcome.Failed? ==> r.testResult == testResult
    ensures r.outcome.Passed? ==> r.testResult == mode
    ensures r.outcome == Failed(InvalidMode) <==> !IsTypeMode(mode)
    ensures r.outcome == Failed(InvalidMessageType) <==> IsTypeMode(mode) && !(msg.Undefined? || msg.Str?)
    ensures r.outcome == Failed(TypeMismatch) <==>
      IsTypeMode(mode) && (msg.Undefined? || msg.Str?) && Classify(input) != mode.s
    ensures r.outcome == Passed <==> IsTypeMode(mode) && (msg.Undefined? || msg.Str?) && Classify(input) == mode.s
    ensures r.outcome != Failed(ComparisonFailed)
  {
    MessageAcceptedExactly(msg);
    if !IsTypeMode(mode) then Step(Failed(InvalidMode), testResult)
    else if !MessageAccepted(msg) then Step(Failed(InvalidMessageType), testResult)
    else if Classify(input) != mode.s then Step(Failed(TypeMismatch), testResult)
    else Step(Passed, mode)
  }

  /** `useOperatorMode`: validates the mode and the message, then evaluates the
      selected comparison. A pass sets the marker to `true`. */
  function OperatorMode(host: Host, testResult: Value, input: Value, mode: Value, input2: Value, msg: Value): (r: Step)
    ensures r.outcome.Failed? ==> r.testResult == testResult
    ensures r.outcome.Passed? ==> r.testResult == Bool(true)
    ensures r.outcome == Failed(InvalidMode) <==> !IsOperatorMode(mode)
    ensures r.outcome == Failed(InvalidMessageType) <==> IsOperatorMode(mode) && !(msg.Undefined? || msg.Str?)
    ensures r.outcome == Failed(ComparisonFailed) <==>
      IsOperatorMode(mode) && (msg.Undefined? || msg.Str?) && !Holds(host, ParseOperator(mode.s).value, input, input2)
    ensures r.outcome == Passed <==>
      IsOperatorMode(mode) && (msg.Undefined? || msg.Str?) && Holds(host, ParseOperator(mode.s).value, input, input2)
    ensures r.outcome != Failed(TypeMismatch)
  {
    MessageAcceptedExactly(msg);
    if !IsOperatorMode(mode) then Step(Failed(InvalidMode), testResult)
    else if !MessageAccepted(msg) then Step(Failed(InvalidMessageType), testResult)
    else if !Holds(host, ParseOperator(mode.s).value, input, input2) then Step(Failed(ComparisonFailed), testResult)
    else Step(Passed, Bool(true))
  }

  /** `ESTest(input, mode, msgOrInput2, msg)`: routes a type tag to type mode
      with the third argument as the message, an operator symbol to operator
      mode with the third argument as the comparand and the fourth as the
      message, and rejects any other mode.

      The contract states the whole behaviour in the engine's own terms:
      which failure each call meets first, when it passes, and what the
      marker holds afterwards. */
  function ESTest(host: Host, testResult: Value, input: Value, mode: Value, msgOrInput2: Value, msg: Value): (r: Step)
    ensures r.outcome == Failed(InvalidMode) <==> !IsTypeMode(mode) && !IsOperatorMode(mode)
    ensures IsTypeMode(mode) ==>
      (r.outcome == Failed(InvalidMessageType) <==> !(msgOrInput2.Undefined? || msgOrInput2.Str?))
    ensures IsTypeMode(mode) ==>
      (r.outcome == Failed(TypeMismatch) <==>
        (msgOrInput2.Undefined? || msgOrInput2.Str?) && Classify(input) != mode.s)
    ensures IsTypeMode(mode) ==>
      (r.outcome == Passed <==> (msgOrInput2.Undefined? || msgOrInput2.Str?) && Classify(input) == mode.s)
    ensures IsOperatorMode(mode) ==>
      (r.outcome == Failed(InvalidMessageType) <==> !(msg.Undefined? || msg.Str?))
    ensures IsOperatorMode(mode) ==>
      (r.outcome == Failed(ComparisonFailed) <==>
        (msg.Undefined? || msg.Str?) && !Holds(host, ParseOperator(mode.s).value, input, msgOrInput2))
    ensures IsOperatorMode(mode) ==>
      (r.outcome == Passed <==> (msg.Undefined? || msg.Str?) && Holds(host, ParseOperator(mode.s).value, input, msgOrInput2))
    ensures r.outcome.Failed? ==> r.testResult == testResult
    ensures r.outcome.Passed? ==> r.testResult == (if IsTypeMode(mode) then mode else Bool(true))
  {
    ModesDisjoint(mode);
    if IsTypeMode(mode) then TypeMode(testResult, input, mode, msgOrInput2)
    else if IsOperatorMode(mode) then OperatorMode(host, testResult, input, mode, msgOrInput2, msg)
    else Step(Failed(InvalidMode), testResult)
  }

  /** No string is both a type tag and an operator symbol, so the routing in
      `ESTest` never has to choose. */
  lemma ModesDisjoint(mode: Value)
    ensures !(IsTypeMode(mode) && IsOperatorMode(mode))
  {
    if mode.Str? && mode.s in TYPES {
      var i :| 0 <= i < |TYPES| && TYPES[i] == mode.s;
      assert TYPES[i][0] !in "<>=!";
    }
  }
}

=== FILE: formatter.dfy ===
/**
  The diagnostic formatter `fixTextInLog`: renders any value as text, expanding
  containers one level and abbreviating a container nested directly inside a
  container of the same kind.
 */
module Formatter {
  import opened Values
  import opened Text

  /** `fixTextInLog`: dispatches on the kind of the value. The source switches
      on the classified tag; by the contract of `Classify` each tag names
      exactly one constructor, so matching on the constructor takes the same
      branch (see `FormatFollowsClassify`). */
  function Format(v: Value): (r: string)
    decreases v, 1
  {
    match v
    case Arr(items) => "[" + DropLast(Trim(Accumulate(ItemTexts(items)))) + "]"
    case Obj(entries) => "{" + DropLast(Trim(Accumulate(EntryTexts(entries)))) + "}"
    case BigInt(n) => Decimal(n) + "n"
    case Str(s) => "'" + s + "'"
    case Sym(_) => "Symbol(...)"
    case _ => HostText(v)
  }

  /** The rendering of each array element, in element order. */
  function ItemTexts(items: seq<Value>): (pieces: seq<string>)
    ensures |pieces| == |items|
    decreases items, 0
  {
    if |items| == 0 then [] else [ItemText(items[0])] + ItemTexts(items[1..])
  }

  /** An array element: an element the classifier calls "array" is
      abbreviated, anything else is formatted in full. */
  function ItemText(item: Value): (r: string)
    decreases item, 2
  {
    if item.Arr? then "[...]" else Format(item)
  }

  /** The rendering of each object entry, in entry order. */
  function EntryTexts(entries: seq<(string, Value)>): (pieces: seq<string>)
    ensures |pieces| == |entries|
    decreases entries, 0
  {
    if |entries| == 0 then []
    else
      assert entries[0] in entries && entries[0].1 < entries[0];
      [EntryText(entries[0].0, entries[0].1)] + EntryTexts(entries[1..])
  }

  /** An object entry: the key, then a value the classifier calls "object"
      abbreviated, or anything else (arrays and null included) formatted in
      full. */
  function EntryText(key: string, value: Value): (r: string)
    decreases value, 2
  {
    key + ": " + (if value.Obj? then "{...}" else Format(value))
  }

  /** The text the host's string conversion gives for the kinds the formatter
      passes through unchanged. */
  function HostText(v: Value): string
    requires v.Undefined? || v.Null? || v.Bool? || v.NaN? || v.Num? || v.Func?
  {
    match v
    case Undefined => "undefined"
    case Null => "null"
    case Bool(b) => if b then "true" else "false"
    case NaN => "NaN"
    case Num(n) => Decimal(n)
    case Func(source) => source
  }
}

=== FILE: rendering.dfy ===
/**
  Properties of the diagnostic formatter: how primitives, arrays and objects
  render, and when nested containers are abbreviated.
 */
module Rendering {
  import opened Values
  import opened Text
  import opened Formatter

  /** The branch `Format` takes is the one the source's switch on the
      classified tag selects, and the nested-container tests in the element
      and entry renderings are the source's tag comparisons. */
  lemma FormatFollowsClassify(v: Value)
    ensures Classify(v) == "array" ==> Format(v) == "[" + DropLast(Trim(Accumulate(ItemTexts(v.items)))) + "]"
    ensures Classify(v) == "object" ==> Format(v) == "{" + DropLast(Trim(Accumulate(EntryTexts(v.entries)))) + "}"
    ensures Classify(v) == "bigint" ==> Format(v) == Decimal(v.big) + "n"
    ensures Classify(v) == "string" ==> Format(v) == "'" + v.s + "'"
    ensures Classify(v) == "symbol" ==> Format(v) == "Symbol(...)"
    ensures Classify(v) !in ["array", "object", "bigint", "string", "symbol"] ==> Format(v) == HostText(v)
    ensures ItemText(v) == if Classify(v) == "array" then "[...]" else Format(v)
    ensures forall key :: EntryText(key, v) == key + ": " + if Classify(v) == "object" then "{...}" else Format(v)
  {
  }

  /** Strings are quoted, bigints are their numeral followed by `n`, every
      symbol reads the same, and the remaining kinds print as the host does. */
  lemma PrimitivesRender(v: Value)
    ensures v.Str? ==> Format(v) == "'" + v.s + "'"
    ensures v.BigInt? ==> Format(v) == Decimal(v.big) + "n"
    ensures v.Sym? ==> Format(v) == "Symbol(...)"
    ensures v.Undefined? ==> Format(v) == "undefined"
    ensures v.Null? ==> Format(v) == "null"
    ensures v.Bool? ==> Format(v) == (if v.b then "true" else "false")
    ensures v.NaN? ==> Format(v) == "NaN"
    ensures v.Num? ==> Format(v) == Decimal(v.n)
    ensures v.Func? ==> Format(v) == v.source
  {
  }

  /** A rendered bigint reads back as the same integer once its `n` suffix is
      dropped: the rendering keeps the value. */
  lemma BigIntRoundTrip(n: int)
    ensures var t := Format(BigInt(n)); |t| > 1 && t[|t| - 1] == 'n' && ParseDecimal(t[..|t| - 1]) == n
  {
    var t := Format(BigInt(n));
    assert t[..|t| - 1] == Decimal(n);
    DecimalRoundTrip(n);
  }

  /** Apart from a function, whose host text is arbitrary, every value renders
      as a non-empty text whose first character is not whitespace. */
  lemma FormatLeadsClean(v: Value)
    requires !v.Func?
    ensures |Format(v)| > 0 && LeadsClean(Format(v))
  {
    match v
    case Arr(_) => assert Format(v)[0] == '[';
    case Obj(_) => assert Format(v)[0] == '{';
    case BigInt(n) =>
      DecimalRoundTrip(n);
      assert Format(v)[0] == Decimal(n)[0];
    case Num(n) =>
      DecimalRoundTrip(n);
      assert Format(v) == Decimal(n);
    case Str(_) => assert Format(v)[0] == '\'';
    case Sym(_) => assert Format(v)[0] == 'S';
    case Undefined => assert Format(v)[0] == 'u';
    case Null => assert Format(v)[0] == 'n';
    case NaN => assert Format(v)[0] == 'N';
    case Bool(b) => assert Format(v)[0] == (if b then 't' else 'f');
  }

  /** The element renderings are listed in element order, one per element. */
  lemma {:induction false} ItemTextsInOrder(items: seq<Value>)
    ensures forall i :: 0 <= i < |items| ==> ItemTexts(items)[i] == ItemText(items[i])
  {
    if |items| > 0 {
      ItemTextsInOrder(items[1..]);
    }
  }

  /** The entry renderings are listed in entry order, one per entry. */
  lemma {:induction false} EntryTextsInOrder(entries: seq<(string, Value)>)
    ensures forall i :: 0 <= i < |entries| ==> EntryTexts(entries)[i] == EntryText(entries[i].0, entries[i].1)
  {
    if |entries| > 0 {
      EntryTextsInOrder(entries[1..]);
    }
  }

  /** An array renders as its element renderings in order, separated by ", "
      and enclosed in brackets, provided the first rendering does not start
      with whitespace (which `trim` would remove). */
  lemma {:induction false} ArrayRendering(items: seq<Value>)
    requires |items| == 0 || LeadsClean(ItemText(items[0]))
    ensures Format(Arr(items)) == "[" + Join(ItemTexts(items), ", ") + "]"
    ensures forall i :: 0 <= i < |items| ==>
      ItemTexts(items)[i] == if items[i].Arr? then "[...]" else Format(items[i])
  {
    var pieces := ItemTexts(items);
    ItemTextsInOrder(items);
    if |items| > 0 {
      TrimSliceRemovesSeparator(pieces);
    }
  }

  /** Every array, whatever its first element, renders as its element
      renderings joined by ", " with only the leading whitespace of that join
      removed. */
  lemma {:induction false} ArrayRenderingExact(items: seq<Value>)
    ensures Format(Arr(items)) == "[" + TrimStart(Join(ItemTexts(items), ", ")) + "]"
  {
    TrimSliceExact(ItemTexts(items));
  }

  /** The first element of an array never disturbs the rendering unless it is
      a function whose host text starts with whitespace. */
  lemma ArrayFirstItemClean(items: seq<Value>)
    requires |items| > 0 && !(items[0].Func? && !LeadsClean(items[0].source))
    ensures LeadsClean(ItemText(items[0]))
  {
    if !items[0].Func? && !items[0].Arr? {
      FormatLeadsClean(items[0]);
    }
  }

  /** An object renders as `key: value` for each entry in order, separated by
      ", " and enclosed in braces, provided the first key does not start with
      whitespace. */
  lemma {:induction false} ObjectRendering(entries: seq<(string, Value)>)
    requires |entries| == 0 || LeadsClean(entries[0].0)
    ensures Format(Obj(entries)) == "{" + Join(EntryTexts(entries), ", ") + "}"
    ensures forall i :: 0 <= i < |entries| ==>
      EntryTexts(entries)[i] ==
        entries[i].0 + ": " + if entries[i].1.Obj? then "{...}" else Format(entries[i].1)
  {
    var pieces := EntryTexts(entries);
    EntryTextsInOrder(entries);
    if |entries| > 0 {
      EntryTextLeadsClean(entries[0].0, entries[0].1);
      TrimSliceRemovesSeparator(pieces);
    }
  }

  /** An entry rendering starts with its key, or with ':' when the key is
      empty, so `trim` can reach into an entry only through its key. */
  lemma EntryTextLeadsClean(key: string, value: Value)
    ensures LeadsClean(EntryText(key, value)) <==> LeadsClean(key)
    ensures |key| > 0 ==> EntryText(key, value)[0] == key[0]
    ensures |key| == 0 ==> EntryText(key, value)[0] == ':'
  {
    var t := EntryText(key, value);
    assert t[0] == (if |key| > 0 then key[0] else ':');
  }

  /** Every object, whatever its first key, renders as its entry renderings
      joined by ", " with only the leading whitespace of that join removed. */
  lemma {:induction false} ObjectRenderingExact(entries: seq<(string, Value)>)
    ensures Format(Obj(entries)) == "{" + TrimStart(Join(EntryTexts(entries), ", ")) + "}"
  {
    TrimSliceExact(EntryTexts(entries));
  }

  /** Empty containers render as an empty pair of brackets or braces. */
  lemma EmptyContainers()
    ensures Format(Arr([])) == "[]"
    ensures Format(Obj([])) == "{}"
  {
    assert ItemTexts([]) == [];
    assert EntryTexts([]) == [];
  }

  /** A one-element array renders as its single element rendering. */
  lemma SingletonArray(item: Value)
    requires LeadsClean(ItemText(item))
    ensures Format(Arr([item])) == "[" + ItemText(item) + "]"
  {
    ArrayRendering([item]);
    assert ItemTexts([item]) == [ItemText(item)];
  }

  /** A one-entry object renders as its single entry rendering. */
  lemma SingletonObject(key: string, value: Value)
    requires LeadsClean(key)
    ensures Format(Obj([(key, value)])) == "{" + EntryText(key, value) + "}"
  {
    ObjectRendering([(key, value)]);
    assert EntryTexts([(key, value)]) == [EntryText(key, value)];
  }

  /** Truncation happens only when the kinds match: an array directly inside
      an array is abbreviated... */
  lemma ArrayInArrayTruncated(inner: seq<Value>)
    ensures Format(Arr([Arr(inner)])) == "[[...]]"
  {
    SingletonArray(Arr(inner));
    assert ItemText(Arr(inner)) == "[...]";
  }

  /** Mixed nesting is expanded: an object inside an array is rendered in
      full... */
  lemma ObjectInArrayExpanded(fields: seq<(string, Value)>)
    ensures Format(Arr([Obj(fields)])) == "[" + Format(Obj(fields)) + "]"
  {
    FormatLeadsClean(Obj(fields));
    SingletonArray(Obj(fields));
    assert ItemText(Obj(fields)) == Format(Obj(fields));
  }

  /** An object directly inside an object is abbreviated to `{...}`. */
  lemma ObjectInObjectTruncated(key: string, inner: seq<(string, Value)>)
    requires LeadsClean(key)
    ensures Format(Obj([(key, Obj(inner))])) == "{" + key + ": {...}}"
  {
    SingletonObject(key, Obj(inner));
  }

  /** Mixed nesting is expanded: an array or null inside an object is
      formatted in full. */
  lemma ValueInObjectExpanded(key: string, value: Value)
    requires LeadsClean(key) && !value.Obj?
    ensures Format(Obj([(key, value)])) == "{" + key + ": " + Format(value) + "}"
  {
    SingletonObject(key, value);
  }

  /** A number followed by a nested array, as in `[1, [2, 3]]`, renders as
      `[1, [...]]`: the nested array's contents never appear. */
  lemma NestedArrayExample(n: int, inner: seq<Value>)
    ensures Format(Arr([Num(n), Arr(inner)])) == "[" + Decimal(n) + ", [...]]"
  {
    var items := [Num(n), Arr(inner)];
    var pieces := ItemTexts(items);
    assert pieces == [Decimal(n), "[...]"] by {
      ItemTextsInOrder(items);
      assert ItemText(Num(n)) == Decimal(n);
    }
    ArrayFirstItemClean(items);
    ArrayRendering(items);
    assert Join(pieces, ", ") == Decimal(n) + ", [...]" by {
      assert pieces[1..] == ["[...]"];
    }
  }

  /** `trim` also eats whitespace that belongs to the first key: the object
      `{" a": 1}` renders as `{a: 1}`. */
  lemma LeadingKeyWhitespaceDropped()
    ensures Format(Obj([(" a", Num(1))])) == "{a: 1}"
  {
    var pieces := EntryTexts([(" a", Num(1))]);
    assert pieces == [" a: 1"] by {
      assert Format(Num(1)) == Decimal(1) == "1";
      assert EntryText(" a", Num(1)) == " a: 1";
    }
    assert Accumulate(pieces) == " a: 1, " by {
      assert pieces[1..] == [];
    }
    var acc := " a: 1, ";
    assert TrimStart(acc) == "a: 1, " by {
      assert IsWhitespace(acc[0]) && acc[1..] == "a: 1, ";
      assert !IsWhitespace('a');
    }
    TrimEndSeparator("a: 1");
    assert DropLast("a: 1,") == "a: 1";
  }
}

=== FILE: suite.dfy ===
/**
  Properties of the assertion entry point across calls: routing, argument
  validation order, independence from the marker, the comparison semantics
  on integers and undefined comparisons, and the marker after a run of calls.
 */
module Suite {
  import opened Values
  import opened Assertions

  /** In type mode the fourth argument is never looked at. */
  lemma TypeModeIgnoresFourth(host: Host, testResult: Value, input: Value, mode: Value, msg: Value, a: Value, b: Value)
    requires IsTypeMode(mode)
    ensures ESTest(host, testResult, input, mode, msg, a) == ESTest(host, testResult, input, mode, msg, b)
  {
  }

  /** In type mode the host's comparisons play no part. */
  lemma TypeModeIgnoresHost(h1: Host, h2: Host, testResult: Value, input: Value, mode: Value, msg: Value, fourth: Value)
    requires IsTypeMode(mode)
    ensures ESTest(h1, testResult, input, mode, msg, fourth) == ESTest(h2, testResult, input, mode, msg, fourth)
  {
  }

  /** A mode that is neither a tag nor an operator fails with InvalidMode
      whatever the other arguments are, and leaves the marker unchanged. */
  lemma UnknownModeRunsNoCheck(host: Host, testResult: Value, input: Value, mode: Value, third: Value, fourth: Value)
    requires !IsTypeMode(mode) && !IsOperatorMode(mode)
    ensures ESTest(host, testResult, input, mode, third, fourth) == Step(Failed(InvalidMode), testResult)
  {
  }

  /** The message is validated before the check: a message that is neither
      missing nor a string fails even when the check itself would pass. */
  lemma MessageCheckedFirst(host: Host, testResult: Value, input: Value, mode: Value, third: Value, fourth: Value)
    requires IsTypeMode(mode) || IsOperatorMode(mode)
    requires IsTypeMode(mode) ==> Classify(input) == mode.s && !(third.Undefined? || third.Str?)
    requires IsOperatorMode(mode) ==>
      Holds(host, ParseOperator(mode.s).value, input, third) && !(fourth.Undefined? || fourth.Str?)
    ensures ESTest(host, testResult, input, mode, third, fourth) == Step(Failed(InvalidMessageType), testResult)
  {
    ModesDisjoint(mode);
  }

  /** The verdict of a call does not depend on the marker it starts from. */
  lemma OutcomeIgnoresMarker(host: Host, t1: Value, t2: Value, input: Value, mode: Value, third: Value, fourth: Value)
    ensures ESTest(host, t1, input, mode, third, fourth).outcome == ESTest(host, t2, input, mode, third, fourth).outcome
  {
  }

  /** The comparison each operator denotes on integers. */
  function IntRelation(op: Operator, a: int, b: int): bool
  {
    match op
    case Lt => a < b
    case Le => a <= b
    case Ge => a >= b
    case Gt => a > b
    case StrictEq => a == b
    case StrictNe => a != b
  }

  /** When the host compares two numbers by their values, every operator
      mode passes exactly when the integer relation holds. */
  lemma IntegerComparisons(host: Host, op: Operator, a: int, b: int, testResult: Value)
    requires host.lessThan(Num(a), Num(b)) == Some(a < b)
    requires host.lessThan(Num(b), Num(a)) == Some(b < a)
    requires host.strictEquals(Num(a), Num(b)) == (a == b)
    ensures ESTest(host, testResult, Num(a), Str(Symbol(op)), Num(b), Undefined).outcome ==
      if IntRelation(op, a, b) then Passed else Failed(ComparisonFailed)
  {
    OperatorRoundTrip(op);
    ModesDisjoint(Str(Symbol(op)));
  }

  /** When the host's less-than comparison is undefined both ways (a NaN
      operand), all four relational modes fail: `>=` is not the negation of
      `<`. */
  lemma UndefinedComparisonFails(host: Host, op: Operator, x: Value, y: Value, testResult: Value)
    requires op in {Lt, Le, Ge, Gt}
    requires host.lessThan(x, y) == None && host.lessThan(y, x) == None
    ensures ESTest(host, testResult, x, Str(Symbol(op)), y, Undefined) == Step(Failed(ComparisonFailed), testResult)
  {
    OperatorRoundTrip(op);
    ModesDisjoint(Str(Symbol(op)));
  }

  /** `ESTest(5, "number")` passes and records "number";
      `ESTest(5, "string")` fails as a type mismatch;
      `ESTest(5, "number", 123)` fails on its message;
      `ESTest(5, "not-a-mode")` fails on its mode. */
  lemma TypeModeExamples(host: Host, testResult: Value)
    ensures ESTest(host, testResult, Num(5), Str("number"), Undefined, Undefined) == Step(Passed, Str("number"))
    ensures ESTest(host, testResult, Num(5), Str("string"), Undefined, Undefined) == Step(Failed(TypeMismatch), testResult)
    ensures ESTest(host, testResult, Num(5), Str("number"), Num(123), Undefined) == Step(Failed(InvalidMessageType), testResult)
    ensures ESTest(host, testResult, Num(5), Str("not-a-mode"), Undefined, Undefined) == Step(Failed(InvalidMode), testResult)
  {
    assert IsTypeMode(Str("number")) by { assert TYPES[6] == "number"; }
    assert IsTypeMode(Str("string")) by { assert TYPES[8] == "string"; }
    assert !IsOperatorMode(Str("not-a-mode"));
    assert !IsTypeMode(Str("not-a-mode"));
  }

  /** One call: the arguments of `ESTest` in order, missing ones as
      `Undefined`. */
  datatype Call = Call(input: Value, mode: Value, third: Value, fourth: Value)

  /** The verdict of a call on its own. */
  function Verdict(host: Host, c: Call): Outcome
  {
    ESTest(host, INITIAL_TEST_RESULT, c.input, c.mode, c.third, c.fourth).outcome
  }

  /** The verdicts of a list of calls, each on its own. */
  function Verdicts(host: Host, calls: seq<Call>): (r: seq<Outcome>)
    ensures |r| == |calls|
  {
    if |calls| == 0 then [] else Verdicts(host, calls[..|calls| - 1]) + [Verdict(host, calls[|calls| - 1])]
  }

  lemma {:induction false} VerdictsPointwise(host: Host, calls: seq<Call>)
    ensures forall i :: 0 <= i < |calls| ==> Verdicts(host, calls)[i] == Verdict(host, calls[i])
  {
    if |calls| > 0 {
      var init := calls[..|calls| - 1];
      VerdictsPointwise(host, init);
      forall i | 0 <= i < |calls|
        ensures Verdicts(host, calls)[i] == Verdict(host, calls[i])
      {
        if i < |calls| - 1 {
          assert Verdicts(host, calls)[i] == Verdicts(host, init)[i];
          assert init[i] == calls[i];
        }
      }
    }
  }

  /** What a passing call stores in the marker. */
  function PassMarker(c: Call): Value
  {
    if IsTypeMode(c.mode) then c.mode else Bool(true)
  }

  /** One call made from a given marker: its verdict is the call's own, and
      the marker moves to the call's pass marker exactly when it passes. */
  lemma CallFromMarker(host: Host, testResult: Value, c: Call)
    ensures var step := ESTest(host, testResult, c.input, c.mode, c.third, c.fourth);
      && step.outcome == Verdict(host, c)
      && step.testResult == if step.outcome.Passed? then PassMarker(c) else testResult
  {
    OutcomeIgnoresMarker(host, testResult, INITIAL_TEST_RESULT, c.input, c.mode, c.third, c.fourth);
  }

  /** Makes one call from the given marker. */
  method RunCall(host: Host, testResult: Value, c: Call) returns (step: Step)
    ensures step.outcome == Verdict(host, c)
    ensures step.testResult == if step.outcome.Passed? then PassMarker(c) else testResult
  {
    step := ESTest(host, testResult, c.input, c.mode, c.third, c.fourth);
    CallFromMarker(host, testResult, c);
  }

  /** Call i passed and every later call failed. */
  predicate PassedLast(outcomes: seq<Outcome>, i: int)
  {
    0 <= i < |outcomes| && outcomes[i].Passed? && forall j :: i < j < |outcomes| ==> outcomes[j].Failed?
  }

  /** Runs calls one after another from the initial marker, as a test file
      does when each failure is caught. The verdicts are those of the calls on
      their own, and `_getTestResult` afterwards reports the last passing call
      (the initial null when none passed). */
  method RunSuite(host: Host, calls: seq<Call>) returns (outcomes: seq<Outcome>, state: ModuleState)
    ensures |outcomes| == |calls|
    ensures forall i :: 0 <= i < |calls| ==> outcomes[i] == Verdict(host, calls[i])
    ensures (forall i :: 0 <= i < |calls| ==> outcomes[i].Failed?) ==> GetTestResult(state) == INITIAL_TEST_RESULT
    ensures forall i :: PassedLast(outcomes, i) ==> GetTestResult(state) == PassMarker(calls[i])
  {
    outcomes := [];
    var testResult := INITIAL_TEST_RESULT;
    ghost var last := -1;
    var k := 0;
    while k < |calls|
      invariant 0 <= k <= |calls|
      invariant |outcomes| == k
      invariant outcomes == Verdicts(host, calls[..k])
      invariant -1 <= last < k
      invariant last == -1 ==> testResult == INITIAL_TEST_RESULT && forall i :: 0 <= i < k ==> outcomes[i].Failed?
      invariant last >= 0 ==> PassedLast(outcomes, last) && testResult == PassMarker(calls[last])
    {
      var c := calls[k];
      var step := RunCall(host, testResult, c);
      assert calls[..k + 1][..k] == calls[..k];
      outcomes := outcomes + [step.outcome];
      testResult := step.testResult;
      if step.outcome.Passed? {
        last := k;
      }
      k := k + 1;
    }
    assert calls[..k] == calls;
    VerdictsPointwise(host, calls);
    forall i | PassedLast(outcomes, i)
      ensures testResult == PassMarker(calls[i])
    {
      assert i == last;
    }
    state := ModuleState(testResult);
  }
}

=== FILE: text.dfy ===
/**
  String operations the formatter relies on: JavaScript's `String.prototype.trim`
  and `slice(0, -1)`, the `result += piece + ", "` accumulation, a reference
  join, and the decimal numerals the host prints for integers.
 */
module Text {

  /** The characters `trim` removes: ECMAScript WhiteSpace and LineTerminator. */
  predicate IsWhitespace(c: char)
  {
    var x := c as int;
    || x == 0x09 || x == 0x0A || x == 0x0B || x == 0x0C || x == 0x0D
    || x == 0x20 || x == 0xA0 || x == 0x1680
    || (0x2000 <= x <= 0x200A)
    || x == 0x2028 || x == 0x2029 || x == 0x202F || x == 0x205F
    || x == 0x3000 || x == 0xFEFF
  }

  /** A text that `trim` leaves alone at its start. */
  predicate LeadsClean(s: string)
  {
    |s| == 0 || !IsWhitespace(s[0])
  }

  function TrimStart(s: string): string
  {
    if |s| > 0 && IsWhitespace(s[0]) then TrimStart(s[1..]) else s
  }

  function TrimEnd(s: string): string
  {
    if |s| > 0 && IsWhitespace(s[|s| - 1]) then TrimEnd(s[..|s| - 1]) else s
  }

  /** `String.prototype.trim`. */
  function Trim(s: string): string
  {
    TrimEnd(TrimStart(s))
  }

  /** `slice(0, -1)`: everything but the last character; empty stays empty. */
  function DropLast(s: string): string
  {
    if |s| == 0 then "" else s[..|s| - 1]
  }

  /** The text a `forEach` loop builds by appending each piece followed by
      ", " to an initially empty string. */
  function Accumulate(pieces: seq<string>): string
  {
    if |pieces| == 0 then "" else pieces[0] + ", " + Accumulate(pieces[1..])
  }

  /** Reference rendering of a list: the pieces separated by `sep`. */
  function Join(pieces: seq<string>, sep: string): string
  {
    if |pieces| == 0 then ""
    else if |pieces| == 1 then pieces[0]
    else pieces[0] + sep + Join(pieces[1..], sep)
  }

  /** The accumulated text is the joined list plus one trailing separator. */
  lemma {:induction false} AccumulateIsJoin(pieces: seq<string>)
    requires |pieces| > 0
    ensures Accumulate(pieces) == Join(pieces, ", ") + ", "
  {
    if |pieces| > 1 {
      AccumulateIsJoin(pieces[1..]);
    }
  }

  /** When the first piece does not start with whitespace, `trim` followed by
      `slice(0, -1)` removes exactly the final ", " and nothing else. */
  lemma {:induction false} TrimSliceRemovesSeparator(pieces: seq<string>)
    requires |pieces| > 0 && LeadsClean(pieces[0])
    ensures DropLast(Trim(Accumulate(pieces))) == Join(pieces, ", ")
  {
    AccumulateIsJoin(pieces);
    var joined := Join(pieces, ", ");
    JoinStartsWithFirst(pieces);
    assert LeadsClean(joined + ", ");
    TrimEndSeparator(joined);
  }

  /** `TrimStart` keeps a suffix of the text: it drops only whitespace, and
      what it keeps does not start with whitespace. */
  lemma {:induction false} TrimStartIsSuffix(s: string)
    ensures |TrimStart(s)| <= |s| && TrimStart(s) == s[|s| - |TrimStart(s)|..]
    ensures forall k :: 0 <= k < |s| - |TrimStart(s)| ==> IsWhitespace(s[k])
    ensures LeadsClean(TrimStart(s))
  {
    if |s| > 0 && IsWhitespace(s[0]) {
      TrimStartIsSuffix(s[1..]);
    }
  }

  /** `TrimEnd` keeps a prefix of the text: it drops only whitespace, and
      what it keeps does not end with whitespace. */
  lemma {:induction false} TrimEndIsPrefix(s: string)
    ensures |TrimEnd(s)| <= |s| && TrimEnd(s) == s[..|TrimEnd(s)|]
    ensures forall k :: |TrimEnd(s)| <= k < |s| ==> IsWhitespace(s[k])
    ensures |TrimEnd(s)| == 0 || !IsWhitespace(TrimEnd(s)[|TrimEnd(s)| - 1])
  {
    if |s| > 0 && IsWhitespace(s[|s| - 1]) {
      TrimEndIsPrefix(s[..|s| - 1]);
    }
  }

  /** `String.prototype.trim` removes exactly the whitespace run at each end:
      the result is the infix of the text between them, and it neither starts
      nor ends with whitespace. Those conditions determine the result. */
  lemma TrimIsInfix(s: string)
    ensures var r, i := Trim(s), |s| - |TrimStart(s)|;
      && 0 <= i <= i + |r| <= |s| && r == s[i..i + |r|]
      && (forall k :: 0 <= k < i ==> IsWhitespace(s[k]))
      && (forall k :: i + |r| <= k < |s| ==> IsWhitespace(s[k]))
    ensures LeadsClean(Trim(s))
    ensures |Trim(s)| == 0 || !IsWhitespace(Trim(s)[|Trim(s)| - 1])
  {
    var u := TrimStart(s);
    var r := Trim(s);
    TrimStartIsSuffix(s);
    TrimEndIsPrefix(u);
    var i := |s| - |u|;
    assert r == u[..|r|];
    assert r == s[i..i + |r|];
    forall k | i + |r| <= k < |s|
      ensures IsWhitespace(s[k])
    {
      assert s[k] == u[k - i];
    }
    if |r| > 0 {
      assert r[0] == u[0];
    }
  }

  /** Whatever the pieces, `trim` followed by `slice(0, -1)` gives their join
      with only the join's own leading whitespace removed: the trailing ", "
      always goes, and nothing else at the end does. */
  lemma {:induction false} TrimSliceExact(pieces: seq<string>)
    ensures DropLast(Trim(Accumulate(pieces))) == TrimStart(Join(pieces, ", "))
  {
    if |pieces| > 0 {
      AccumulateIsJoin(pieces);
      var joined := Join(pieces, ", ");
      TrimStartAppend(joined, ", ");
      TrimStartIsSuffix(joined);
      TrimEndSeparator(TrimStart(joined));
    }
  }

  /** Leading whitespace is stripped from the front only: text after a
      non-blank character is kept as it is. */
  lemma {:induction false} TrimStartAppend(s: string, t: string)
    requires |t| > 0 && !IsWhitespace(t[0])
    ensures TrimStart(s + t) == TrimStart(s) + t
  {
    if |s| > 0 {
      assert (s + t)[0] == s[0];
      if IsWhitespace(s[0]) {
        assert (s + t)[1..] == s[1..] + t;
        TrimStartAppend(s[1..], t);
      }
    }
  }

  /** `trim` strips only the blank after a trailing comma. */
  lemma TrimEndSeparator(t: string)
    requires LeadsClean(t + ", ")
    ensures Trim(t + ", ") == t + ","
  {
    var s := t + ", ";
    assert TrimStart(s) == s;
    assert s[..|s| - 1] == t + ",";
    assert IsWhitespace(s[|s| - 1]);
    assert TrimEnd(s) == TrimEnd(t + ",");
  }

  lemma {:induction false} JoinStartsWithFirst(pieces: seq<string>)
    requires |pieces| > 0
    ensures |pieces| == 1 ==> Join(pieces, ", ") == pieces[0]
    ensures |pieces| > 1 ==> Join(pieces, ", ") == pieces[0] + ", " + Join(pieces[1..], ", ")
  {
  }

  /** Decimal digit character of a digit value. */
  function DigitChar(d: nat): char
    requires d < 10
  {
    "0123456789"[d]
  }

  /** Value of a decimal digit character; zero for anything else. */
  function DigitValue(c: char): nat
  {
    if '0' <= c <= '9' then (c as int - '0' as int) else 0
  }

  /** The decimal numeral of a natural number, most significant digit first. */
  function Digits(n: nat): (r: string)
    ensures |r| > 0
  {
    if n < 10 then [DigitChar(n)] else Digits(n / 10) + [DigitChar(n % 10)]
  }

  /** The text the host prints for an integer: its numeral, with a leading
      '-' when negative. */
  function Decimal(n: int): string
  {
    if n < 0 then "-" + Digits(-n) else Digits(n)
  }

  /** Reads a numeral back, independently of how it was printed. */
  function ParseDigits(s: string): nat
  {
    if |s| == 0 then 0 else 10 * ParseDigits(s[..|s| - 1]) + DigitValue(s[|s| - 1])
  }

  function ParseDecimal(s: string): int
  {
    if |s| > 0 && s[0] == '-' then -(ParseDigits(s[1..]) as int) else ParseDigits(s)
  }

  predicate IsDigit(c: char)
  {
    '0' <= c <= '9'
  }

  lemma {:induction false} DigitsRoundTrip(n: nat)
    ensures ParseDigits(Digits(n)) == n
    ensures forall i :: 0 <= i < |Digits(n)| ==> IsDigit(Digits(n)[i])
  {
    if n >= 10 {
      DigitsRoundTrip(n / 10);
      var s := Digits(n);
      assert s[..|s| - 1] == Digits(n / 10);
    }
  }

  /** Printing an integer and reading it back gives the integer: the numeral
      is made of digits after an optional sign and loses no information. */
  lemma DecimalRoundTrip(n: int)
    ensures ParseDecimal(Decimal(n)) == n
    ensures |Decimal(n)| > 0 && (Decimal(n)[0] == '-' || IsDigit(Decimal(n)[0]))
    ensures forall i :: 0 < i < |Decimal(n)| ==> IsDigit(Decimal(n)[i])
  {
    if n < 0 {
      DigitsRoundTrip(-n);
      assert Decimal(n)[1..] == Digits(-n);
    } else {
      DigitsRoundTrip(n);
    }
  }
}

=== FILE: values.dfy ===
/**
  JavaScript runtime values as the assertion engine sees them, and the type
  classifier `fixLegacyType` that maps every value to one of eleven tags.
 */
module Values {

  /** A JavaScript value. Numbers are modelled by their integral values, with
      NaN as a value of its own; a function carries the text the host gives
      when it converts the function to a string; an object is the ordered list
      of its own enumerable entries. */
  datatype Value =
    | Undefined
    | Null
    | Bool(b: bool)
    | Num(n: int)
    | NaN
    | BigInt(big: int)
    | Str(s: string)
    | Sym(description: string)
    | Func(source: string)
    | Arr(items: seq<Value>)
    | Obj(entries: seq<(string, Value)>)

  /** The eleven tags the engine accepts as a type mode, in source order. */
  const TYPES: seq<string> := [
    "undefined", "null", "array", "object", "boolean", "NaN",
    "number", "bigint", "string", "symbol", "function"
  ]

  /** Stands for the error text `fixLegacyType` falls back to when `typeof`
      yields a kind its table lacks (the source embeds the input in it). It
      starts with an emoji, so no entry of TYPES equals it. */
  const FALLBACK: string := "❌ Error from fixLegacyType(), input: "

  /** The host's `typeof` operator: it cannot tell null, arrays and objects
      apart, nor NaN from other numbers. */
  function NativeType(v: Value): string
  {
    match v
    case Undefined => "undefined"
    case Null => "object"
    case Bool(_) => "boolean"
    case Num(_) => "number"
    case NaN => "number"
    case BigInt(_) => "bigint"
    case Str(_) => "string"
    case Sym(_) => "symbol"
    case Func(_) => "function"
    case Arr(_) => "object"
    case Obj(_) => "object"
  }

  /** The lookup table built by `fixLegacyType`, keyed by `typeof` names,
      with the two conflated kinds resolved by the three probes. */
  function TypeMap(isNull: bool, isArray: bool, isNaN: bool): map<string, string>
  {
    map[
      "undefined" := "undefined",
      "object" := (if isNull then "null" else if isArray then "array" else "object"),
      "boolean" := "boolean",
      "number" := (if isNaN then "NaN" else "number"),
      "bigint" := "bigint",
      "string" := "string",
      "symbol" := "symbol",
      "function" := "function"
    ]
  }

  /** `fixLegacyType`: looks the value's `typeof` up in the table and falls
      back to an error text when the entry is missing or empty. The result is
      always one of TYPES, and each tag picks out exactly one kind of value. */
  function Classify(v: Value): (tag: string)
    ensures tag in TYPES
    ensures tag == "undefined" <==> v.Undefined?
    ensures tag == "null" <==> v.Null?
    ensures tag == "array" <==> v.Arr?
    ensures tag == "object" <==> v.Obj?
    ensures tag == "boolean" <==> v.Bool?
    ensures tag == "NaN" <==> v.NaN?
    ensures tag == "number" <==> v.Num?
    ensures tag == "bigint" <==> v.BigInt?
    ensures tag == "string" <==> v.Str?
    ensures tag == "symbol" <==> v.Sym?
    ensures tag == "function" <==> v.Func?
  {
    var typeMap := TypeMap(v.Null?, v.Arr?, v.NaN?);
    var kind := NativeType(v);
    if kind in typeMap && typeMap[kind] != "" then typeMap[kind] else FALLBACK
  }

  /** Classification only refines `typeof`: it agrees with it except on the
      "object" and "number" kinds, which it splits. */
  lemma ClassifyRefinesNativeType(v: Value)
    ensures NativeType(v) != "object" && NativeType(v) != "number" ==> Classify(v) == NativeType(v)
    ensures NativeType(v) == "object" <==> Classify(v) in ["null", "array", "object"]
    ensures NativeType(v) == "number" <==> Classify(v) in ["NaN", "number"]
  {
  }
}
